=== FILE: README.md ===
# Waze alert crawler: a Dafny model

This project models the core of a crawler that collects Waze LiveMap alerts
over a bounding box and the export of the stored alerts as GeoJSON.

- The crawler asks the feed about one area at a time. A work queue holds the
  pending areas and is used as a stack.
- An answer carrying an `error` member is ignored. So is an answer without an
  `alerts` member.
- An answer with at least `MAX_ALERTS` alerts is taken as truncated. Its area
  is split into four quadrants, which are pushed onto the queue.
- Any other answer is written into the `data` table with `INSERT OR IGNORE`,
  keyed by the alert's `uuid`.
- The export maps every row of the table to a GeoJSON Point feature. The
  result is a FeatureCollection (RFC 7946, sections 3.1.2 and 3.3).

Files:

- `geometry.dfy` (module `Geometry`): the `Area` bounding box and its split
  into quadrants. It proves that the quadrants tile their parent, and that an
  area reached by repeated splitting lies inside the root.
- `store.dfy` (module `Store`): the feed items and the rows they become,
  insert-or-ignore, and the ingest of a whole batch.
- `crawler.dfy` (module `Crawler`): how one answer is classified, one step of
  the queue, and the drain of the queue from the root area. The drain is
  written both as a function with fuel and as a loop.
- `scenarios.dfy` (module `Scenarios`): a general "split once, then write the
  four quadrants" lemma, and two concrete drains.
- `geojson.dfy` (module `GeoJson`): rows to FeatureCollection, and back.
- `option.dfy` (module `Wrappers`): `Option`, for JSON members that may be
  absent.

Modelling choices:

- Coordinates are exact `real`s.
- The network request is a parameter `feed: Area -> Fetched`. `Fetched` is
  either a JSON body (`Response`) or a transport failure.
- The SQLite table is a `map<string, Record>` keyed by `uuid`.
- `MAX_ALERTS` is the `nat` parameter `capacity`. The root area is a
  parameter.
- A point lies in an area when each coordinate lies in the half-open span
  between the area's two bounds on that axis. With this rule, quadrants that
  share an edge do not overlap.
- The drain takes a `fuel` bound. It does not have to terminate: a feed that
  always answers at capacity makes the source loop forever.

Points where the code's behaviour is easy to misread, and which the model
follows as written:

- A rejected request ends the crawl. `await getData(...)` at `index.js:119` is
  not wrapped in any error handling, so a network error or a non-success
  status rejects the promise and ends `main`. The model ends the drain: `Step`
  returns `Abort` and `Drain` returns `Crashed`.
- One pass only. The comment at `index.js:114` calls `main` an "Infinite
  loop", but `main` drains the queue once and returns. There is no outer
  cycle and no pause between requests.
- No guard against degenerate areas. Nothing in `splitData` or `main`
  refuses an area with zero width or zero height, and the model does not
  either. An area with zero width and zero height splits into four copies
  of itself. An area with only one zero extent still has its other extent
  halved.
- The alert `type` is stored in a `TEXT` column (`index.js:61`), so the model
  keeps it as a string (`kind`).

## Model

| member | source | states |
|---|---|---|
| Geometry.Split | index.js:79-89 | The result has exactly four areas: top left, top right, bottom left, bottom right. Their outer bounds are the parent's and their inner edges are shared. Each is half the parent's width and half its height. |
| Geometry.MidpointsInside | index.js:81-82 | For a parent with `left < right` and `bottom < top`, both midpoints lie strictly inside it, and every quadrant has a positive extent smaller than the parent's. |
| Geometry.SplitTiles | index.js:79-89 | A point lies in the parent exactly when it lies in one of the four quadrants, and it never lies in two of them: no gap and no overlap. |
| Geometry.SplitSurface | index.js:81-88 | Each quadrant has a quarter of the parent's surface. |
| Geometry.Descend | index.js:137 | The area reached from `a` after `k` levels of splitting has the width and the height of `a` each halved `k` times. |
| Geometry.DescendSnoc | index.js:137 | Descending one more quadrant level is splitting the area reached so far. |
| Geometry.SplitReachable | index.js:137 | The quadrants of an area obtained from the root by splitting are obtained from the root by splitting. |
| Geometry.DescendInside | index.js:79-89 | Every point of an area obtained by repeated splitting lies in the area it was split from. |
| Store.ToRecord | index.js:103-109 | The row written for a feed item copies uuid, type and pubMillis, and takes its latitude from `location.y` and its longitude from `location.x`. |
| Store.RecordRoundTrip | index.js:103-109 | The row keeps uuid, type and pubMillis, and stores `location.y` as latitude and `location.x` as longitude. So the feed item can be rebuilt from its row, and the row from the item. |
| Store.InsertOrIgnore | index.js:97-109 | `INSERT OR IGNORE` adds the record's uuid to the keys and changes no existing row. An absent key gets the record. |
| Store.Ingest | index.js:94-111 | After a batch, the table's keys are the old keys plus the batch's uuids, and every row that was already present is unchanged. |
| Store.IngestFirstWins | index.js:94-111 | A key that was not in the table holds the row of the first item in the batch with that uuid. Later duplicates are ignored. |
| Store.IngestWellKeyed | index.js:59-60 | Every row stays stored under its own uuid, the table's primary key. |
| Store.IngestPresent | index.js:97-100 | A batch whose uuids are all stored already leaves the table unchanged. This follows from the contract of `Ingest`. |
| Store.IngestIdempotent | index.js:94-111 | Ingesting the same batch twice gives the same table as ingesting it once. |
| Store.IngestAppend | index.js:95-110 | Ingesting a concatenation is the same as ingesting its parts one after the other, in order. |
| Store.IngestDoubledBatch | index.js:95-110 | A batch that repeats itself is stored as if it came once. |
| Store.IngestCount | index.js:58-66 | From an empty table, the number of rows equals the number of distinct uuids in the batch. |
| Crawler.Decide | index.js:123-140 | An `error` member means ignore, even when `alerts` is present. A missing `alerts` means ignore. Otherwise the answer splits the area exactly when it has at least `capacity` alerts, and is written exactly when it has fewer. |
| Crawler.CapacityBoundary | index.js:136-140 | An answer with exactly `capacity` alerts splits. One with `capacity - 1` alerts is written. |
| Crawler.Pop | index.js:118 | Taking an area removes only the queue's last element. The rest keeps its order. |
| Crawler.Step | index.js:117-141 | A step removes the last area and nothing else. On an error or a missing `alerts` member, the table is unchanged and nothing is pushed. At capacity, exactly the four quadrants are pushed and the table is unchanged. Below capacity, the batch is ingested and nothing is pushed. A transport failure ends the drain. |
| Crawler.Drain | index.js:116-142 | The drain never changes or removes a stored row. On an empty queue it stops at once with the table unchanged. When the fuel runs out, the queue is non-empty. |
| Crawler.StepFromRoot | index.js:136-137 | If every queued area is obtained from the root by splitting, the same holds after a step. |
| Crawler.DrainFromRoot | index.js:116-142 | Wherever the drain stops, every area still queued is obtained from the root by splitting. |
| Crawler.Seed | index.js:147-154 | The initial queue holds only the root area, and so satisfies that invariant. |
| Crawler.Run | index.js:116-156 | One drain seeded with the root. It never changes a stored row. If it finishes, the uuids of the root's own answer are stored when that answer was below capacity and had no `error`. If it stops early, every area still queued is obtained from the root by splitting. |
| Crawler.ReachableInside | index.js:79-89 | An area obtained from the root by splitting never reaches outside the root. |
| Crawler.StepReported | index.js:136-140 | A step adds only uuids from an answer for the area it took. That answer had no `error` and was below capacity. |
| Crawler.DrainComplete | index.js:116-142 | If a drain finishes, it has processed every area it had queued: each uuid the feed answered for one of them, without `error` and below capacity, is stored at the end. |
| Crawler.SplitStepPushes | index.js:136-137 | When the area taken splits, the step leaves the table unchanged, and the queue becomes the rest of the queue followed by the four quadrants. The quadrant a path chooses sits `path[0]` places above the rest (top left directly above it, bottom right three places above, on top), and the rest of the path continues from it. |
| Crawler.DrainCompleteDeep | index.js:116-142 | If a drain finishes, it has processed everything the splits pushed. Take any queued area and a path down from it along which every area answered at capacity. The uuids that the area at the end of the path answered, without `error` and below capacity, are stored at the end. |
| Crawler.RunCompleteDeep | index.js:116-156 | If a drain from the root finishes, then for every area reached by splits whose ancestors all answered at capacity, the uuids it answered below capacity are stored. |
| Crawler.SplitsAlongSnoc | index.js:136-137 | A path on which every area split can be extended by one quadrant of its last area, when that area splits too. |
| Crawler.SplitProcessed | index.js:136-137 | The quadrants of an area that the crawler asks about and that splits are asked about too: a push happens only below an at-capacity answer. |
| Crawler.StepProcessed | index.js:117-140 | A step keeps the exact invariant. Only areas reached through at-capacity ancestors are queued, and only their answers are written. |
| Crawler.DrainProcessed | index.js:116-142 | Every row a drain adds was answered, without `error` and below capacity, by an area reached from the root through ancestors that all answered at capacity. |
| Crawler.RunExact | index.js:116-156 | For a finished drain from the root and a uuid not stored before it, the uuid is stored at the end exactly when some area reached from the root through at-capacity ancestors answered it without `error` and below capacity. |
| Crawler.DrainReported | index.js:116-142 | Any row that a drain adds to the table is such a uuid, reported for an area obtained from the root by splitting. |
| Crawler.RunReported | index.js:116-154 | For a whole drain seeded with the root, every row added was reported by the feed for an area inside the root. The answer had no `error` and was below capacity. |
| Crawler.DrainQueue | index.js:116-142 | The loop seeds the queue with the root and runs until the queue is empty. It computes the same result as `Drain`, keeps every queued area reachable from the root, and never changes a stored row. |
| Scenarios.WriteStep | index.js:117-140 | A step on an answer below capacity pops the area and ingests its batch. |
| Scenarios.DrainWrites | index.js:116-140 | Suppose every queued area answers below capacity. Then the drain finishes in as many steps as there are queued areas. It writes their batches one by one, starting from the last area. |
| Scenarios.SplitOnce | index.js:116-142 | Suppose the root answers at capacity and all four quadrants answer below it. Then the drain ends after five steps, having ingested the quadrants bottom right, bottom left, top right, top left (the reverse of push order). |
| Scenarios.SplitOnceScenario | index.js:116-154 | Root 10 by 10, capacity 5. The root answers 7 alerts and each quadrant answers 2 alerts of its own. The drain finishes with exactly those 8 uuids. |
| Scenarios.ErrorScenario | index.js:123-127 | A feed that answers with an `error` member leaves the table as it was, and the drain ends after one step. |
| GeoJson.ToGeoJson | generate-template.js:24-38 | The collection has type `FeatureCollection` and one feature per row, in row order. |
| GeoJson.ToFeature | generate-template.js:27-36 | A row becomes a `Feature` whose geometry is a `Point` at `[longitude, latitude]` and whose properties are the row's uuid, type and pubMillis. |
| GeoJson.FromGeoJson | generate-template.js:26-37 | Reading rows back succeeds exactly when every feature is a two-coordinate Point, and yields one row per feature. |
| GeoJson.GeoJsonRoundTrip | generate-template.js:24-38 | Reading the exported rows back gives exactly the rows, in order. So each feature carries its row's uuid, type and pubMillis, and the Point `[longitude, latitude]`. |
| GeoJson.LocationRoundTrip | generate-template.js:30 | Ingest swaps a feed item's location into (latitude, longitude), and the export writes it out as `[x, y]`. The feature's properties are the item's uuid, type and pubMillis. |
| GeoJson.IngestedAlertExported | generate-template.js:26-36 | Take an item whose uuid was new to the table and first in its batch. Exporting any full listing of the resulting table gives a feature for it at `[x, y]` with the item's properties. |

## Left out

- Network I/O (`getData`, axios, the request URL): the feed is the function parameter `feed`.
- SQLite specifics: the connection, the WAL pragma, table creation and prepared statements. The table is a map.
- Configuration loading (dotenv, `UseDefault`, `ParseFloat`, `Inject`): it is environment plumbing. As written, `UseDefault[...]` indexes the function instead of calling it, and the `=== NaN` test never fires. The model takes the capacity and the root area as parameters. Because of the `UseDefault[...]` slip, an unset `MAX_ALERTS` leaves `Config["MAX_ALERTS"]` `undefined`. Then `data.alerts.length >= undefined` at `index.js:136` is always false, and the crawler never splits. No `nat` capacity expresses that case. With a very large capacity the model behaves the same way on every finite answer.
- Cooldown and inter-request delay: the configuration declares them, but `main` never uses them.
- Termination of the drain: the source has no depth bound. The fuel bound stands in for it, and nothing is claimed about drains that need more steps.
- Answer bodies whose `alerts` is not an array of items, and a `null` body. The model's `Response` holds an `alerts` that is either absent or an array, so it cannot express these. In the source:
  - A `null` body makes `data.error` throw at `index.js:124`. An `alerts` that is `null` makes `.length` throw at `index.js:136`. Either exception ends `main`.
  - An `alerts` whose `length` is at least `MAX_ALERTS` is split at `index.js:136-137` with no exception. A long string or an object with a numeric `length` does this.
  - Otherwise the body goes to `useData`. An empty string writes nothing. A non-empty string is iterated by character, and `alert.location.y` throws at `index.js:107`. A number, a boolean or an object that is not iterable makes the `for...of` throw at `index.js:95`. Each exception ends `main`.
- Feed items with missing fields (a `location` that is absent, say): the source would throw in the middle of a batch. The model's items always carry every field the crawler reads.
- Floating-point rounding of the midpoints and coordinates: the model uses exact reals.
- Logging through `console.*`.
- The HTML/Mapbox template, the file writes of the export, and reading the table (`SELECT *`). The export takes the rows as a sequence; `ListsTable` says when a sequence lists a whole table.
- The CSV exporter (date formatting, csv-stringify, progress bar, streams) and the frequency analysis, which exists only as comments.

=== FILE: crawler.dfy ===
/**
 The adaptive crawler: classifying one feed answer, one step of the work
 queue, and the drain of the queue from the root area.

 The network request is the parameter `feed`, a function from the area asked
 for to what awaiting the request yields. The queue is a sequence used as a
 stack: the next area is always its last element.
 */
module Crawler {
  import opened Geometry
  import opened Store
  import opened Wrappers

  /** The JSON body of a feed answer. Each field is `None` when the body does
      not carry it. */
  datatype Response = Response(error: Option<string>, alerts: Option<seq<FeedAlert>>)

  /** What awaiting the request yields: a body, or a rejected promise (network
      error, non-success status). */
  datatype Fetched = Answered(body: Response) | TransportFailure

  /** What the crawler does with one answer. */
  datatype Action = Ignore | Subdivide(children: seq<Area>) | Insert(batch: seq<FeedAlert>)

  /** Classifies an answer, in the order the checks are made: an `error`
      field first, a missing `alerts` member next, and only then the number of
      alerts against the capacity. An answer with exactly `capacity` alerts is
      taken as truncated and splits the area. */
  function Decide(area: Area, body: Response, capacity: nat): (act: Action)
    ensures body.error.Some? ==> act == Ignore
    ensures body.alerts.None? ==> act == Ignore
    ensures act.Subdivide? <==>
              body.error.None? && body.alerts.Some? && |body.alerts.value| >= capacity
    ensures act.Insert? <==>
              body.error.None? && body.alerts.Some? && |body.alerts.value| < capacity
    ensures act.Subdivide? ==> act.children == Split(area)
    ensures act.Insert? ==> act.batch == body.alerts.value
  {
    if body.error.Some? then Ignore
    else if body.alerts.None? then Ignore
    else if |body.alerts.value| >= capacity then Subdivide(Split(area))
    else Insert(body.alerts.value)
  }

  /** The boundary of the capacity test: `capacity` alerts split, one fewer
      are written. */
  lemma CapacityBoundary(area: Area, batch: seq<FeedAlert>, capacity: nat)
    requires |batch| == capacity
    ensures Decide(area, Response(None, Some(batch)), capacity) == Subdivide(Split(area))
    ensures capacity > 0 ==>
              Decide(area, Response(None, Some(batch[..capacity - 1])), capacity)
              == Insert(batch[..capacity - 1])
  {
  }

  /** The state of a drain: the pending areas and the table. */
  datatype Crawl = Crawl(queue: seq<Area>, table: Table)

  /** The result of one step: the drain goes on, or the request failed and the
      failure ended it. */
  datatype Outcome = Continue(state: Crawl) | Abort(state: Crawl)

  /** The queue without its last element. */
  function Pop(q: seq<Area>): (r: seq<Area>)
    requires |q| > 0
    ensures |r| == |q| - 1
    ensures forall i :: 0 <= i < |r| ==> r[i] == q[i]
  {
    q[..|q| - 1]
  }

  /** One iteration of the drain loop: take the last area, ask the feed about
      it, and act on the answer. Only the taken area leaves the queue; an
      error or a missing `alerts` member changes nothing else; a full answer
      pushes the four quadrants and leaves the table alone; a short answer is
      written and pushes nothing. A failed request ends the drain. */
  function Step(feed: Area -> Fetched, capacity: nat, s: Crawl): (o: Outcome)
    requires |s.queue| > 0
    ensures var a := s.queue[|s.queue| - 1];
            o.Abort? <==> feed(a).TransportFailure?
    ensures o.Abort? ==> o.state == Crawl(Pop(s.queue), s.table)
    ensures var a := s.queue[|s.queue| - 1];
            feed(a).Answered? && (feed(a).body.error.Some? || feed(a).body.alerts.None?) ==>
              o == Continue(Crawl(Pop(s.queue), s.table))
    ensures var a := s.queue[|s.queue| - 1];
            feed(a).Answered? && feed(a).body.error.None? && feed(a).body.alerts.Some? &&
            |feed(a).body.alerts.value| >= capacity ==>
              o == Continue(Crawl(Pop(s.queue) + Split(a), s.table))
    ensures var a := s.queue[|s.queue| - 1];
            feed(a).Answered? && feed(a).body.error.None? && feed(a).body.alerts.Some? &&
            |feed(a).body.alerts.value| < capacity ==>
              o == Continue(Crawl(Pop(s.queue), Ingest(s.table, feed(a).body.alerts.value)))
  {
    var a := s.queue[|s.queue| - 1];
    var rest := Pop(s.queue);
    match feed(a)
    case TransportFailure => Abort(Crawl(rest, s.table))
    case Answered(body) =>
      match Decide(a, body, capacity)
      case Ignore => Continue(Crawl(rest, s.table))
      case Subdivide(children) => Continue(Crawl(rest + children, s.table))
      case Insert(batch) => Continue(Crawl(rest, Ingest(s.table, batch)))
  }

  /** How a drain ended: with an empty queue, because a request failed, or
      because the fuel ran out (the crawler has no depth bound, so a feed that
      always answers at capacity never lets the drain end). */
  datatype DrainResult = Finished(table: Table) | Crashed(state: Crawl) | OutOfFuel(state: Crawl)

  function TableOf(r: DrainResult): Table
  {
    match r
    case Finished(t) => t
    case Crashed(s) => s.table
    case OutOfFuel(s) => s.table
  }

  /** Runs at most `fuel` steps, stopping as soon as the queue is empty. No row
      already in the table is ever changed or removed. */
  function Drain(feed: Area -> Fetched, capacity: nat, s: Crawl, fuel: nat): (r: DrainResult)
    ensures Extends(s.table, TableOf(r))
    ensures |s.queue| == 0 ==> r == Finished(s.table)
    ensures r.OutOfFuel? ==> |r.state.queue| > 0
    decreases fuel
  {
    if |s.queue| == 0 then Finished(s.table)
    else if fuel == 0 then OutOfFuel(s)
    else
      match Step(feed, capacity, s)
      case Abort(s') => Crashed(s')
      case Continue(s') =>
        var r := Drain(feed, capacity, s', fuel - 1);
        ExtendsTransitive(s.table, s'.table, TableOf(r));
        r
  }

  /** One unfolding of the drain on a non-empty queue with fuel left. */
  lemma DrainStep(feed: Area -> Fetched, capacity: nat, s: Crawl, fuel: nat)
    requires |s.queue| > 0 && fuel > 0
    ensures var o := Step(feed, capacity, s);
            Drain(feed, capacity, s, fuel) ==
            if o.Abort? then Crashed(o.state) else Drain(feed, capacity, o.state, fuel - 1)
  {
  }

  /** A drain that finished did not stop at its first step: that step went
      on, and the rest of the drain finished with the same table. */
  lemma FinishedContinues(feed: Area -> Fetched, capacity: nat, s: Crawl, fuel: nat)
    requires |s.queue| > 0 && Drain(feed, capacity, s, fuel).Finished?
    ensures fuel > 0 && Step(feed, capacity, s).Continue?
    ensures Drain(feed, capacity, s, fuel) == Drain(feed, capacity, Step(feed, capacity, s).state, fuel - 1)
  {
    DrainStep(feed, capacity, s, fuel);
  }

  /** A drain that finished has processed every area it had queued: every
      uuid the feed answered for one of them, below capacity and without
      `error`, is stored. */
  lemma {:induction false} DrainComplete(feed: Area -> Fetched, capacity: nat, s: Crawl, fuel: nat, j: int, k: string)
    requires 0 <= j < |s.queue| && Drain(feed, capacity, s, fuel).Finished?
    requires k in WrittenFor(feed, capacity, s.queue[j])
    ensures k in Drain(feed, capacity, s, fuel).table
    decreases fuel
  {
    DrainStep(feed, capacity, s, fuel);
    var o := Step(feed, capacity, s);
    var r := Drain(feed, capacity, o.state, fuel - 1);
    if j == |s.queue| - 1 {
      assert k in o.state.table;
      assert Extends(o.state.table, r.table);
    } else {
      assert o.state.queue[j] == s.queue[j];
      DrainComplete(feed, capacity, o.state, fuel - 1, j, k);
    }
  }

  /** The feed answers `a` without `error` and at capacity, so the crawler
      splits it. */
  predicate SplitsAt(feed: Area -> Fetched, capacity: nat, a: Area)
  {
    feed(a).Answered? && Decide(a, feed(a).body, capacity).Subdivide?
  }

  /** Every area on the way from `a` down `path`, `a` included and the last
      area excluded, is split by the crawler. */
  predicate SplitsAlong(feed: Area -> Fetched, capacity: nat, a: Area, path: seq<Quadrant>)
    decreases |path|
  {
    |path| == 0 ||
    (SplitsAt(feed, capacity, a) && SplitsAlong(feed, capacity, Split(a)[path[0]], path[1..]))
  }

  /** A step on an area that splits pushes its quadrants on top of the rest of
      the queue, so the quadrant `path[0]` sits `path[0]` places above where
      the area was, with the rest of the path below it. */
  lemma SplitStepPushes(feed: Area -> Fetched, capacity: nat, s: Crawl, path: seq<Quadrant>)
    requires |s.queue| > 0 && |path| > 0
    requires SplitsAlong(feed, capacity, s.queue[|s.queue| - 1], path)
    ensures var a := s.queue[|s.queue| - 1];
            var o := Step(feed, capacity, s);
            var j' := |s.queue| - 1 + path[0];
            && o.Continue? && o.state.queue == Pop(s.queue) + Split(a)
            && j' < |o.state.queue|
            && o.state.table == s.table
            && o.state.queue[j'] == Split(a)[path[0]]
            && SplitsAlong(feed, capacity, o.state.queue[j'], path[1..])
            && Descend(o.state.queue[j'], path[1..]) == Descend(a, path)
  {
    var a := s.queue[|s.queue| - 1];
    var rest := Pop(s.queue);
    assert Step(feed, capacity, s).state.queue == rest + Split(a);
  }

  /** After one step, the area `j` and its path continue lower in the
      queue: unchanged when the area was not taken, and one level down, at
      the pushed quadrant, when it was taken and split. */
  lemma DeepNext(feed: Area -> Fetched, capacity: nat, s: Crawl, j: int, path: seq<Quadrant>, k: string)
    requires 0 <= j < |s.queue| && |path| > 0 && Step(feed, capacity, s).Continue?
    requires SplitsAlong(feed, capacity, s.queue[j], path)
    requires k in WrittenFor(feed, capacity, Descend(s.queue[j], path))
    ensures var next := Step(feed, capacity, s).state;
            var j' := if j < |s.queue| - 1 then j else j + path[0];
            var path' := if j < |s.queue| - 1 then path else path[1..];
            && 0 <= j' < |next.queue|
            && SplitsAlong(feed, capacity, next.queue[j'], path')
            && k in WrittenFor(feed, capacity, Descend(next.queue[j'], path'))
  {
    var next := Step(feed, capacity, s).state;
    if j < |s.queue| - 1 {
      assert next.queue[j] == s.queue[j];
    } else {
      SplitStepPushes(feed, capacity, s, path);
    }
  }

  /** A drain that finished has also processed everything the splits pushed:
      for every queued area and every path down from it along which each area
      answered at capacity, the uuids the area at the end of the path
      answered below capacity are stored. */
  lemma {:induction false} DrainCompleteDeep(feed: Area -> Fetched, capacity: nat, s: Crawl, fuel: nat,
                                             j: int, path: seq<Quadrant>, k: string)
    requires 0 <= j < |s.queue| && Drain(feed, capacity, s, fuel).Finished?
    requires SplitsAlong(feed, capacity, s.queue[j], path)
    requires k in WrittenFor(feed, capacity, Descend(s.queue[j], path))
    ensures k in Drain(feed, capacity, s, fuel).table
    decreases fuel
  {
    if |path| == 0 {
      DrainComplete(feed, capacity, s, fuel, j, k);
    } else {
      FinishedContinues(feed, capacity, s, fuel);
      var next := Step(feed, capacity, s).state;
      var j' := if j < |s.queue| - 1 then j else j + path[0];
      var path' := if j < |s.queue| - 1 then path else path[1..];
      DeepNext(feed, capacity, s, j, path, k);
      DrainCompleteDeep(feed, capacity, next, fuel - 1, j', path', k);
    }
  }

  /** A finished drain from the root has written every area it reached by
      splitting: the uuids of each such area's below-capacity answer are
      stored. */
  lemma RunCompleteDeep(feed: Area -> Fetched, capacity: nat, root: Area, table: Table, fuel: nat,
                        path: seq<Quadrant>)
    requires Run(feed, capacity, root, table, fuel).Finished?
    requires SplitsAlong(feed, capacity, root, path)
    ensures WrittenFor(feed, capacity, Descend(root, path)) <= Run(feed, capacity, root, table, fuel).table.Keys
  {
    var s := Crawl(Seed(root), table);
    forall k | k in WrittenFor(feed, capacity, Descend(root, path))
      ensures k in Run(feed, capacity, root, table, fuel).table
    {
      DrainCompleteDeep(feed, capacity, s, fuel, 0, path, k);
    }
  }

  /** The queue a drain starts from: the root area alone, which is reachable
      from itself by the empty path. */
  function Seed(root: Area): (q: seq<Area>)
    ensures |q| == 1 && q[0] == root
    ensures QueueFromRoot(root, q)
  {
    assert Descend(root, []) == root;
    [root]
  }

  /** One drain of the crawler from the configured root area. Rows already
      stored stay as they were; a drain that finished has written the root's
      own answer when that answer was below capacity; a drain stopped early
      leaves only areas obtained from the root by splitting in its queue. */
  function Run(feed: Area -> Fetched, capacity: nat, root: Area, table: Table, fuel: nat): (r: DrainResult)
    ensures Extends(table, TableOf(r))
    ensures r.Finished? ==> WrittenFor(feed, capacity, root) <= r.table.Keys
    ensures !r.Finished? ==> QueueFromRoot(root, r.state.queue)
  {
    var s := Crawl(Seed(root), table);
    var r := Drain(feed, capacity, s, fuel);
    DrainFromRoot(feed, capacity, root, s, fuel);
    if r.Finished? then
      assert forall k | k in WrittenFor(feed, capacity, root) :: k in r.table by {
        forall k | k in WrittenFor(feed, capacity, root) ensures k in r.table {
          DrainComplete(feed, capacity, s, fuel, 0, k);
        }
      }
      r
    else r
  }

  /** Every queued area is the root or is obtained from it by splitting. */
  ghost predicate QueueFromRoot(root: Area, q: seq<Area>)
  {
    forall i :: 0 <= i < |q| ==> Reachable(root, q[i])
  }

  /** A step keeps every queued area reachable from the root. */
  lemma StepFromRoot(feed: Area -> Fetched, capacity: nat, root: Area, s: Crawl)
    requires |s.queue| > 0 && QueueFromRoot(root, s.queue)
    ensures QueueFromRoot(root, Step(feed, capacity, s).state.queue)
  {
    var a := s.queue[|s.queue| - 1];
    SplitReachable(root, a);
  }

  /** Wherever a drain stops, every area still queued is reachable from the
      root, and so lies inside it. */
  lemma {:induction false} DrainFromRoot(feed: Area -> Fetched, capacity: nat, root: Area, s: Crawl, fuel: nat)
    requires QueueFromRoot(root, s.queue)
    ensures var r := Drain(feed, capacity, s, fuel);
            !r.Finished? ==> QueueFromRoot(root, r.state.queue)
    decreases fuel
  {
    if |s.queue| > 0 && fuel > 0 {
      StepFromRoot(feed, capacity, root, s);
      match Step(feed, capacity, s)
      case Abort(s') =>
      case Continue(s') =>
        DrainFromRoot(feed, capacity, root, s', fuel - 1);
    }
  }

  /** A reachable area never reaches outside the root. */
  lemma ReachableInside(root: Area, a: Area, x: real, y: real)
    requires Reachable(root, a) && Covers(a, x, y)
    ensures Covers(root, x, y)
  {
    var path: seq<Quadrant> :| Descend(root, path) == a;
    DescendInside(root, path, x, y);
  }

  /** The uuids written when the feed's answer for `a` is acted on: those of
      an answer without `error` and below capacity, and none otherwise. */
  function WrittenFor(feed: Area -> Fetched, capacity: nat, a: Area): set<string>
  {
    match feed(a)
    case TransportFailure => {}
    case Answered(body) =>
      match Decide(a, body, capacity)
      case Insert(batch) => Uuids(batch)
      case _ => {}
  }

  /** `k` is written by the answer for some area obtained from the root. */
  ghost predicate Reported(feed: Area -> Fetched, capacity: nat, root: Area, k: string)
  {
    exists a :: Reachable(root, a) && k in WrittenFor(feed, capacity, a)
  }

  /** Every row of `t` that is not in `t0` was written by such an answer. */
  ghost predicate NewRowsReported(feed: Area -> Fetched, capacity: nat, root: Area, t0: Table, t: Table)
  {
    forall k :: k in t && k !in t0 ==> Reported(feed, capacity, root, k)
  }

  /** A step only adds rows that the feed reported for the area it took. */
  lemma StepReported(feed: Area -> Fetched, capacity: nat, root: Area, t0: Table, s: Crawl)
    requires |s.queue| > 0 && QueueFromRoot(root, s.queue)
    requires NewRowsReported(feed, capacity, root, t0, s.table)
    ensures NewRowsReported(feed, capacity, root, t0, Step(feed, capacity, s).state.table)
  {
    var a := s.queue[|s.queue| - 1];
    assert Reachable(root, a);
    var t := Step(feed, capacity, s).state.table;
    forall k | k in t && k !in t0
      ensures Reported(feed, capacity, root, k)
    {
      if k !in s.table {
        assert k in WrittenFor(feed, capacity, a);
      }
    }
  }

  /** The invariant of a drain from the root that started on table `t0`. */
  ghost predicate DrainInvariant(feed: Area -> Fetched, capacity: nat, root: Area, t0: Table, s: Crawl)
  {
    QueueFromRoot(root, s.queue) && NewRowsReported(feed, capacity, root, t0, s.table)
  }

  lemma StepKeepsInvariant(feed: Area -> Fetched, capacity: nat, root: Area, t0: Table, s: Crawl)
    requires |s.queue| > 0 && DrainInvariant(feed, capacity, root, t0, s)
    ensures DrainInvariant(feed, capacity, root, t0, Step(feed, capacity, s).state)
  {
    StepFromRoot(feed, capacity, root, s);
    StepReported(feed, capacity, root, t0, s);
  }

  /** Whatever a drain from the root adds to the table, the feed reported,
      in an answer without `error` and below capacity, for an area inside the
      root. */
  lemma {:induction false} DrainReported(feed: Area -> Fetched, capacity: nat, root: Area, t0: Table, s: Crawl, fuel: nat, k: string)
    requires DrainInvariant(feed, capacity, root, t0, s)
    requires k in TableOf(Drain(feed, capacity, s, fuel)) && k !in t0
    ensures Reported(feed, capacity, root, k)
    decreases fuel
  {
    if |s.queue| > 0 && fuel > 0 {
      StepKeepsInvariant(feed, capacity, root, t0, s);
      DrainStep(feed, capacity, s, fuel);
      var o := Step(feed, capacity, s);
      if o.Continue? {
        DrainReported(feed, capacity, root, t0, o.state, fuel - 1, k);
      }
    }
  }

  /** For a whole drain from the root: every new row was reported by the feed
      for an area inside the root. */
  lemma RunReported(feed: Area -> Fetched, capacity: nat, root: Area, table: Table, fuel: nat)
    ensures NewRowsReported(feed, capacity, root, table, TableOf(Run(feed, capacity, root, table, fuel)))
  {
    var s := Crawl(Seed(root), table);
    forall k | k in TableOf(Run(feed, capacity, root, table, fuel)) && k !in table
      ensures Reported(feed, capacity, root, k)
    {
      DrainReported(feed, capacity, root, table, s, fuel, k);
    }
  }

  /** `a` is an area the crawler asks about in a drain from `root`: it is
      reached from the root along a path on which every area answered at
      capacity. */
  ghost predicate Processed(feed: Area -> Fetched, capacity: nat, root: Area, a: Area)
  {
    exists path: seq<Quadrant> :: SplitsAlong(feed, capacity, root, path) && Descend(root, path) == a
  }

  /** Extending a splitting path by one more split. */
  lemma {:induction false} SplitsAlongSnoc(feed: Area -> Fetched, capacity: nat, a: Area, path: seq<Quadrant>, q: Quadrant)
    requires SplitsAlong(feed, capacity, a, path) && SplitsAt(feed, capacity, Descend(a, path))
    ensures SplitsAlong(feed, capacity, a, path + [q])
    decreases |path|
  {
    if |path| == 0 {
      assert path + [q] == [q];
      assert ([q])[1..] == [];
    } else {
      assert (path + [q])[0] == path[0];
      assert (path + [q])[1..] == path[1..] + [q];
      SplitsAlongSnoc(feed, capacity, Split(a)[path[0]], path[1..], q);
    }
  }

  /** The quadrants of a processed area that splits are processed. */
  lemma SplitProcessed(feed: Area -> Fetched, capacity: nat, root: Area, a: Area)
    requires Processed(feed, capacity, root, a) && SplitsAt(feed, capacity, a)
    ensures forall i :: 0 <= i < 4 ==> Processed(feed, capacity, root, Split(a)[i])
  {
    var path: seq<Quadrant> :| SplitsAlong(feed, capacity, root, path) && Descend(root, path) == a;
    forall i | 0 <= i < 4
      ensures Processed(feed, capacity, root, Split(a)[i])
    {
      SplitsAlongSnoc(feed, capacity, root, path, i);
      DescendSnoc(root, path, i);
    }
  }

  /** Every row of `t` that is not in `t0` was written by the answer for a
      processed area. */
  ghost predicate NewRowsProcessed(feed: Area -> Fetched, capacity: nat, root: Area, t0: Table, t: Table)
  {
    forall k :: k in t && k !in t0 ==>
      exists a :: Processed(feed, capacity, root, a) && k in WrittenFor(feed, capacity, a)
  }

  /** The exact invariant of a drain from the root: only processed areas are
      queued, and only their answers are written. */
  ghost predicate ProcessedInvariant(feed: Area -> Fetched, capacity: nat, root: Area, t0: Table, s: Crawl)
  {
    && (forall i :: 0 <= i < |s.queue| ==> Processed(feed, capacity, root, s.queue[i]))
    && NewRowsProcessed(feed, capacity, root, t0, s.table)
  }

  /** A step keeps the exact invariant: it queues only the quadrants of an
      area that splits, and writes only the answer of the area it took. */
  lemma StepProcessed(feed: Area -> Fetched, capacity: nat, root: Area, t0: Table, s: Crawl)
    requires |s.queue| > 0 && ProcessedInvariant(feed, capacity, root, t0, s)
    ensures ProcessedInvariant(feed, capacity, root, t0, Step(feed, capacity, s).state)
  {
    var a := s.queue[|s.queue| - 1];
    var next := Step(feed, capacity, s).state;
    assert Processed(feed, capacity, root, a);
    if SplitsAt(feed, capacity, a) {
      SplitProcessed(feed, capacity, root, a);
      assert next.queue == Pop(s.queue) + Split(a);
      assert next.table == s.table;
    } else {
      assert next.queue == Pop(s.queue);
      forall k | k in next.table && k !in t0
        ensures exists b :: Processed(feed, capacity, root, b) && k in WrittenFor(feed, capacity, b)
      {
        if k !in s.table {
          assert k in WrittenFor(feed, capacity, a);
        }
      }
    }
  }

  /** Whatever a drain adds to the table was written by the answer for a
      processed area. */
  lemma {:induction false} DrainProcessed(feed: Area -> Fetched, capacity: nat, root: Area, t0: Table, s: Crawl, fuel: nat, k: string)
    requires ProcessedInvariant(feed, capacity, root, t0, s)
    requires k in TableOf(Drain(feed, capacity, s, fuel)) && k !in t0
    ensures exists a :: Processed(feed, capacity, root, a) && k in WrittenFor(feed, capacity, a)
    decreases fuel
  {
    if |s.queue| > 0 && fuel > 0 {
      StepProcessed(feed, capacity, root, t0, s);
      DrainStep(feed, capacity, s, fuel);
      var o := Step(feed, capacity, s);
      if o.Continue? {
        DrainProcessed(feed, capacity, root, t0, o.state, fuel - 1, k);
      }
    }
  }

  /** The rows a finished drain from the root adds are exactly the uuids
      answered, without `error` and below capacity, by the areas it reaches
      through ancestors that all answered at capacity. */
  lemma RunExact(feed: Area -> Fetched, capacity: nat, root: Area, table: Table, fuel: nat, k: string)
    requires Run(feed, capacity, root, table, fuel).Finished? && k !in table
    ensures k in Run(feed, capacity, root, table, fuel).table <==>
            exists path: seq<Quadrant> :: SplitsAlong(feed, capacity, root, path) &&
                                          k in WrittenFor(feed, capacity, Descend(root, path))
  {
    var r := Run(feed, capacity, root, table, fuel);
    var s := Crawl(Seed(root), table);
    if k in r.table {
      assert SplitsAlong(feed, capacity, root, []) && Descend(root, []) == root;
      assert ProcessedInvariant(feed, capacity, root, table, s);
      DrainProcessed(feed, capacity, root, table, s, fuel, k);
      var a :| Processed(feed, capacity, root, a) && k in WrittenFor(feed, capacity, a);
      var path: seq<Quadrant> :| SplitsAlong(feed, capacity, root, path) && Descend(root, path) == a;
      assert SplitsAlong(feed, capacity, root, path) && k in WrittenFor(feed, capacity, Descend(root, path));
    } else {
      forall path: seq<Quadrant> | SplitsAlong(feed, capacity, root, path)
        ensures k !in WrittenFor(feed, capacity, Descend(root, path))
      {
        RunCompleteDeep(feed, capacity, root, table, fuel, path);
      }
    }
  }

  /** The drain loop as the crawler writes it: pop, fetch, act, until the
      queue is empty (or, here, the fuel runs out). Every queued area stays
      reachable from the root, and no stored row is ever changed. */
  method DrainQueue(feed: Area -> Fetched, capacity: nat, root: Area, table: Table, fuel: nat)
    returns (r: DrainResult)
    ensures r == Run(feed, capacity, root, table, fuel)
    ensures !r.Finished? ==> QueueFromRoot(root, r.state.queue)
    ensures Extends(table, TableOf(r))
  {
    var s := Crawl(Seed(root), table);
    var k := fuel;
    while |s.queue| > 0 && k > 0
      invariant Drain(feed, capacity, s, k) == Run(feed, capacity, root, table, fuel)
      invariant QueueFromRoot(root, s.queue)
      decreases k
    {
      StepFromRoot(feed, capacity, root, s);
      DrainStep(feed, capacity, s, k);
      var o := Step(feed, capacity, s);
      if o.Abort? {
        return Crashed(o.state);
      }
      s, k := o.state, k - 1;
    }
    if |s.queue| == 0 {
      r := Finished(s.table);
    } else {
      r := OutOfFuel(s);
    }
  }
}

=== FILE: geojson.dfy ===
/**
 The export of the alert table as a GeoJSON FeatureCollection (RFC 7946,
 section 3.3), one Point feature (section 3.1.2) per row. A GeoJSON position
 is written longitude first, so the row's (latitude, longitude) pair is
 reversed.
 */
module GeoJson {
  import opened Store
  import opened Wrappers

  /** A Point geometry: `tag` is its `type` member. */
  datatype Point = Point(tag: string, coordinates: seq<real>)

  /** The `properties` member of a feature. */
  datatype Properties = Properties(uuid: string, kind: string, pubMillis: int)

  datatype Feature = Feature(tag: string, geometry: Point, properties: Properties)

  datatype FeatureCollection = FeatureCollection(tag: string, features: seq<Feature>)

  /** The feature written for one row: a Point at `[longitude, latitude]`
      carrying the row's uuid, type and publication time. */
  function ToFeature(row: Record): (f: Feature)
    ensures f.tag == "Feature" && f.geometry.tag == "Point"
    ensures f.geometry.coordinates == [row.longitude, row.latitude]
    ensures f.properties == Properties(row.uuid, row.kind, row.pubMillis)
  {
    Feature("Feature", Point("Point", [row.longitude, row.latitude]),
            Properties(row.uuid, row.kind, row.pubMillis))
  }

  /** The collection written for the rows of the table, one feature per row,
      in the order the rows are read. */
  function ToGeoJson(rows: seq<Record>): (g: FeatureCollection)
    ensures g.tag == "FeatureCollection"
    ensures |g.features| == |rows|
    ensures forall i :: 0 <= i < |rows| ==> g.features[i] == ToFeature(rows[i])
  {
    FeatureCollection("FeatureCollection", seq(|rows|, i requires 0 <= i < |rows| => ToFeature(rows[i])))
  }

  /** Reads a row back from a feature; `None` when the feature is not a
      two-coordinate Point. */
  function FromFeature(f: Feature): Option<Record>
  {
    if f.geometry.tag == "Point" && |f.geometry.coordinates| == 2 then
      Some(Record(f.properties.uuid, f.properties.kind, f.properties.pubMillis,
                          f.geometry.coordinates[1], f.geometry.coordinates[0]))
    else None
  }

  /** Reads the rows back from a collection; `None` when some feature is not
      a two-coordinate Point. */
  function FromGeoJson(g: FeatureCollection): (r: Option<seq<Record>>)
    ensures r.Some? ==> |r.value| == |g.features|
    ensures r.Some? <==> forall i :: 0 <= i < |g.features| ==> FromFeature(g.features[i]).Some?
    ensures r.Some? ==> forall i :: 0 <= i < |g.features| ==>
              FromFeature(g.features[i]) == Some(r.value[i])
    decreases |g.features|
  {
    if |g.features| == 0 then Some([])
    else
      var n := |g.features| - 1;
      var last := FromFeature(g.features[n]);
      var prefix := FromGeoJson(FeatureCollection(g.tag, g.features[..n]));
      if last.Some? && prefix.Some? then Some(prefix.value + [last.value])
      else None
  }

  /** Exporting loses nothing: the rows can be read back, in order. */
  lemma GeoJsonRoundTrip(rows: seq<Record>)
    ensures FromGeoJson(ToGeoJson(rows)) == Some(rows)
  {
    var g := ToGeoJson(rows);
    var r := FromGeoJson(g);
    assert forall i :: 0 <= i < |rows| ==> FromFeature(g.features[i]) == Some(rows[i]);
    assert r.value == rows;
  }

  /** A feed item's location `(x, y)` comes out of the crawler and the export
      as the position `[x, y]`: the swap on writing and the swap on export
      cancel. */
  lemma LocationRoundTrip(a: FeedAlert)
    ensures ToFeature(ToRecord(a)).geometry.coordinates == [a.location.x, a.location.y]
    ensures ToFeature(ToRecord(a)).properties == Properties(a.uuid, a.kind, a.pubMillis)
  {
  }

  /** `rows` is what reading the whole table yields: each row is the table's
      row for its uuid, and every row of the table is listed. */
  ghost predicate ListsTable(rows: seq<Record>, t: Table)
  {
    && (forall i :: 0 <= i < |rows| ==> rows[i].uuid in t && t[rows[i].uuid] == rows[i])
    && (forall k :: k in t ==> exists i :: 0 <= i < |rows| && rows[i] == t[k])
  }

  /** A feed item written into a table that did not hold its uuid, and not
      preceded by an item with the same uuid, appears in the export as a
      feature at `[x, y]` with the item's properties. */
  lemma IngestedAlertExported(t: Table, batch: seq<FeedAlert>, i: int, rows: seq<Record>)
    requires 0 <= i < |batch| && batch[i].uuid !in t && FirstOccurrence(batch, i)
    requires ListsTable(rows, Ingest(t, batch))
    ensures exists j :: 0 <= j < |rows| &&
              ToGeoJson(rows).features[j].geometry.coordinates ==
                [batch[i].location.x, batch[i].location.y] &&
              ToGeoJson(rows).features[j].properties ==
                Properties(batch[i].uuid, batch[i].kind, batch[i].pubMillis)
  {
    var t' := Ingest(t, batch);
    IngestFirstWins(t, batch, i);
    var k := batch[i].uuid;
    assert k in Uuids(batch);
    assert k in t';
    var j :| 0 <= j < |rows| && rows[j] == t'[k];
    assert rows[j] == ToRecord(batch[i]);
    assert ToGeoJson(rows).features[j] == ToFeature(ToRecord(batch[i]));
    LocationRoundTrip(batch[i]);
  }
}

=== FILE: geometry.dfy ===
/**
 The query unit of the crawler: an axis-aligned bounding box in degrees, and
 its subdivision into four quadrants at the horizontal and vertical midpoints.

 Coordinates are exact reals; the floating-point rounding of the midpoints in
 the crawler is not modelled.
 */
module Geometry {

  /** A bounding box. In the default configuration `top > bottom` (north is the
      larger latitude) and `right > left`, but nothing below depends on it
      unless a lemma says so. */
  datatype Area = Area(top: real, bottom: real, left: real, right: real)

  /** The index of a quadrant in the result of `Split`: 0 = top left,
      1 = top right, 2 = bottom left, 3 = bottom right. */
  type Quadrant = i: int | 0 <= i < 4

  function Min(a: real, b: real): real { if a <= b then a else b }
  function Max(a: real, b: real): real { if a <= b then b else a }
  function Abs(a: real): real { if a < 0.0 then -a else a }

  /** Signed extent along the longitude axis. */
  function Width(a: Area): real { a.right - a.left }

  /** Signed extent along the latitude axis. */
  function Height(a: Area): real { a.top - a.bottom }

  /** The (unsigned) surface of an area, in square degrees. */
  function Surface(a: Area): real { Abs(Width(a)) * Abs(Height(a)) }

  /** The half-open span between two bounds, whichever of them is larger. */
  predicate InSpan(b1: real, b2: real, v: real)
  {
    Min(b1, b2) <= v < Max(b1, b2)
  }

  /** The point with longitude `x` and latitude `y` lies in the area. Spans are
      half-open so that adjacent areas sharing an edge do not overlap. */
  predicate Covers(a: Area, x: real, y: real)
  {
    InSpan(a.left, a.right, x) && InSpan(a.bottom, a.top, y)
  }

  /** The edge shared by the left and the right quadrants. */
  function MidVertical(a: Area): real { a.left + (a.right - a.left) / 2.0 }

  /** The edge shared by the top and the bottom quadrants. */
  function MidHorizontal(a: Area): real { a.top + (a.bottom - a.top) / 2.0 }

  /** Splits an area into its four quadrants, top left, top right, bottom left,
      bottom right. The outer bounds of the quadrants are the parent's, the
      inner edges are shared, and every quadrant has half the parent's width
      and half its height. */
  function Split(a: Area): (r: seq<Area>)
    ensures |r| == 4
    // outer bounds are the parent's
    ensures r[0].top == a.top && r[1].top == a.top
    ensures r[2].bottom == a.bottom && r[3].bottom == a.bottom
    ensures r[0].left == a.left && r[2].left == a.left
    ensures r[1].right == a.right && r[3].right == a.right
    // inner edges are shared
    ensures r[0].right == r[1].left == r[2].right == r[3].left
    ensures r[0].bottom == r[1].bottom == r[2].top == r[3].top
    // every quadrant is half as wide and half as high
    ensures forall i :: 0 <= i < 4 ==>
              Width(r[i]) == Width(a) / 2.0 && Height(r[i]) == Height(a) / 2.0
  {
    var midV := MidVertical(a);
    var midH := MidHorizontal(a);
    [ Area(a.top, midH, a.left, midV),
      Area(a.top, midH, midV, a.right),
      Area(midH, a.bottom, a.left, midV),
      Area(midH, a.bottom, midV, a.right) ]
  }

  /** The inner edges of a non-degenerate area lie strictly inside it. */
  lemma MidpointsInside(a: Area)
    requires a.left < a.right && a.bottom < a.top
    ensures a.left < MidVertical(a) < a.right
    ensures a.bottom < MidHorizontal(a) < a.top
    ensures forall i :: 0 <= i < 4 ==> 0.0 < Width(Split(a)[i]) < Width(a)
    ensures forall i :: 0 <= i < 4 ==> 0.0 < Height(Split(a)[i]) < Height(a)
  {
  }

  /** Cutting a half-open span at its midpoint gives two disjoint half-open
      spans whose union is the original one. */
  lemma SpanCut(b1: real, b2: real, v: real)
    ensures var m := b1 + (b2 - b1) / 2.0;
            InSpan(b1, b2, v) <==> (InSpan(b1, m, v) || InSpan(m, b2, v))
    ensures var m := b1 + (b2 - b1) / 2.0;
            !(InSpan(b1, m, v) && InSpan(m, b2, v))
  {
  }

  /** The quadrants tile the parent: a point lies in the parent exactly when
      it lies in some quadrant, and it never lies in two. */
  lemma SplitTiles(a: Area, x: real, y: real)
    ensures Covers(a, x, y) <==> exists i :: 0 <= i < 4 && Covers(Split(a)[i], x, y)
    ensures forall i, j :: 0 <= i < j < 4 && Covers(Split(a)[i], x, y) ==>
              !Covers(Split(a)[j], x, y)
  {
    var c := Split(a);
    SpanCut(a.left, a.right, x);
    SpanCut(a.top, a.bottom, y);
    assert InSpan(a.bottom, a.top, y) == InSpan(a.top, a.bottom, y);
    assert InSpan(c[0].bottom, c[0].top, y) == InSpan(a.top, MidHorizontal(a), y);
    assert InSpan(c[2].bottom, c[2].top, y) == InSpan(MidHorizontal(a), a.bottom, y);
  }

  /** The four quadrants together have the parent's surface. */
  lemma SplitSurface(a: Area)
    ensures forall i :: 0 <= i < 4 ==> 4.0 * Surface(Split(a)[i]) == Surface(a)
  {
  }

  /** The extent `e` halved `n` times. */
  function Halved(e: real, n: nat): real
    decreases n
  {
    if n == 0 then e else Halved(e / 2.0, n - 1)
  }

  /** The area reached from `a` by descending into the quadrants named by
      `path`, outermost first. An area `k` splits below `a` has the width and
      the height of `a` halved `k` times. */
  function Descend(a: Area, path: seq<Quadrant>): (d: Area)
    ensures Width(d) == Halved(Width(a), |path|)
    ensures Height(d) == Halved(Height(a), |path|)
    decreases |path|
  {
    if |path| == 0 then a else Descend(Split(a)[path[0]], path[1..])
  }

  /** An area is reachable from the root when repeated splitting produces it. */
  ghost predicate Reachable(root: Area, a: Area)
  {
    exists path: seq<Quadrant> :: Descend(root, path) == a
  }

  /** Descending one more level is splitting the area reached so far. */
  lemma {:induction false} DescendSnoc(a: Area, path: seq<Quadrant>, q: Quadrant)
    ensures Descend(a, path + [q]) == Split(Descend(a, path))[q]
    decreases |path|
  {
    if |path| == 0 {
      assert path + [q] == [q];
      assert ([q])[1..] == [];
    } else {
      assert (path + [q])[1..] == path[1..] + [q];
      DescendSnoc(Split(a)[path[0]], path[1..], q);
    }
  }

  /** The quadrants of a reachable area are reachable. */
  lemma SplitReachable(root: Area, a: Area)
    requires Reachable(root, a)
    ensures forall i :: 0 <= i < 4 ==> Reachable(root, Split(a)[i])
  {
    var path: seq<Quadrant> :| Descend(root, path) == a;
    forall i | 0 <= i < 4
      ensures Reachable(root, Split(a)[i])
    {
      DescendSnoc(root, path, i);
    }
  }

  /** Every point of an area reached by splitting lies in the root. */
  lemma {:induction false} DescendInside(a: Area, path: seq<Quadrant>, x: real, y: real)
    requires Covers(Descend(a, path), x, y)
    ensures Covers(a, x, y)
    decreases |path|
  {
    if |path| > 0 {
      DescendInside(Split(a)[path[0]], path[1..], x, y);
      SplitTiles(a, x, y);
    }
  }
}

=== FILE: option.dfy ===
/** An optional value, for JSON members that may be absent. */
module Wrappers {
  datatype Option<T> = None | Some(value: T)
}

=== FILE: scenarios.dfy ===
/**
 Concrete drains of the crawler on small feeds.
 */
module Scenarios {
  import opened Geometry
  import opened Store
  import opened Crawler
  import opened Wrappers

  function Item(uuid: string): FeedAlert
  {
    FeedAlert(uuid, "ACCIDENT", 0, Location(1.0, 1.0))
  }

  const Root := Area(10.0, 0.0, 0.0, 10.0)
  const TopLeft := Area(10.0, 5.0, 0.0, 5.0)
  const TopRight := Area(10.0, 5.0, 5.0, 10.0)
  const BottomLeft := Area(5.0, 0.0, 0.0, 5.0)
  const BottomRight := Area(5.0, 0.0, 5.0, 10.0)

  lemma RootQuadrants()
    ensures Split(Root) == [TopLeft, TopRight, BottomLeft, BottomRight]
  {
  }

  function Pair(u1: string, u2: string): seq<FeedAlert>
  {
    [Item(u1), Item(u2)]
  }

  /** A feed that answers the 10 by 10 root with 7 alerts and each of its
      quadrants with 2 alerts of its own. */
  function QuadrantFeed(a: Area): Fetched
  {
    if a == Root then Answered(Response(None, Some(seq(7, _ => Item("root")))))
    else if a == TopLeft then Answered(Response(None, Some(Pair("tl1", "tl2"))))
    else if a == TopRight then Answered(Response(None, Some(Pair("tr1", "tr2"))))
    else if a == BottomLeft then Answered(Response(None, Some(Pair("bl1", "bl2"))))
    else Answered(Response(None, Some(Pair("br1", "br2"))))
  }

  /** The batch a feed answers for an area, when it answers with one. */
  function BatchOf(feed: Area -> Fetched, a: Area): seq<FeedAlert>
  {
    if feed(a).Answered? && feed(a).body.alerts.Some? then feed(a).body.alerts.value else []
  }

  /** The feed answers `a` with a plain batch (no `error` field). */
  predicate PlainAnswer(feed: Area -> Fetched, a: Area)
  {
    feed(a).Answered? && feed(a).body.error.None? && feed(a).body.alerts.Some?
  }

  /** One step that writes the last queued area's batch. */
  lemma WriteStep(feed: Area -> Fetched, capacity: nat, q: seq<Area>, a: Area, t: Table, fuel: nat)
    requires PlainAnswer(feed, a) && |BatchOf(feed, a)| < capacity
    ensures Drain(feed, capacity, Crawl(q + [a], t), fuel + 1)
            == Drain(feed, capacity, Crawl(q, Ingest(t, BatchOf(feed, a))), fuel)
  {
  }

  /** The table after writing the batches of the queued areas, last area
      first. */
  function WriteBack(feed: Area -> Fetched, q: seq<Area>, t: Table): Table
    decreases |q|
  {
    if |q| == 0 then t else WriteBack(feed, Pop(q), Ingest(t, BatchOf(feed, q[|q| - 1])))
  }

  /** A queue whose areas all answer below capacity is drained in as many
      steps as it has areas, each area written in turn from the last. */
  lemma {:induction false} DrainWrites(feed: Area -> Fetched, capacity: nat, q: seq<Area>, t: Table)
    requires forall i :: 0 <= i < |q| ==> PlainAnswer(feed, q[i]) && |BatchOf(feed, q[i])| < capacity
    ensures Drain(feed, capacity, Crawl(q, t), |q|) == Finished(WriteBack(feed, q, t))
    decreases |q|
  {
    if |q| > 0 {
      var a := q[|q| - 1];
      var p := Pop(q);
      assert q == p + [a];
      WriteStep(feed, capacity, p, a, t, |p|);
      DrainWrites(feed, capacity, p, Ingest(t, BatchOf(feed, a)));
    }
  }

  /** Writing back four areas, spelled out. */
  lemma WriteBackFour(feed: Area -> Fetched, c: seq<Area>, t: Table)
    requires |c| == 4
    ensures WriteBack(feed, c, t) ==
            Ingest(Ingest(Ingest(Ingest(t, BatchOf(feed, c[3])), BatchOf(feed, c[2])),
                          BatchOf(feed, c[1])), BatchOf(feed, c[0]))
  {
    var t1 := Ingest(t, BatchOf(feed, c[3]));
    var t2 := Ingest(t1, BatchOf(feed, c[2]));
    var t3 := Ingest(t2, BatchOf(feed, c[1]));
    var t4 := Ingest(t3, BatchOf(feed, c[0]));
    assert Pop(c) == c[..3] && Pop(c[..3]) == c[..2] && Pop(c[..2]) == c[..1] && Pop(c[..1]) == [];
    assert c[..3][2] == c[2] && c[..2][1] == c[1] && c[..1][0] == c[0];
    assert WriteBack(feed, [], t4) == t4;
    assert WriteBack(feed, c[..1], t3) == WriteBack(feed, [], t4);
    assert WriteBack(feed, c[..2], t2) == WriteBack(feed, c[..1], t3);
    assert WriteBack(feed, c[..3], t1) == WriteBack(feed, c[..2], t2);
    assert WriteBack(feed, c, t) == WriteBack(feed, c[..3], t1);
  }

  /** When the root answers at capacity and each quadrant answers below it,
      the drain takes five steps: one split, then the quadrants from the last
      pushed (bottom right) to the first (top left). */
  lemma SplitOnce(feed: Area -> Fetched, capacity: nat, root: Area, t: Table)
    requires PlainAnswer(feed, root) && |BatchOf(feed, root)| >= capacity
    requires forall i :: 0 <= i < 4 ==>
               PlainAnswer(feed, Split(root)[i]) && |BatchOf(feed, Split(root)[i])| < capacity
    ensures var c := Split(root);
            Drain(feed, capacity, Crawl([root], t), 5) ==
            Finished(Ingest(Ingest(Ingest(Ingest(t, BatchOf(feed, c[3])), BatchOf(feed, c[2])),
                                   BatchOf(feed, c[1])), BatchOf(feed, c[0])))
  {
    var c := Split(root);
    assert Pop([root]) == [];
    assert Step(feed, capacity, Crawl([root], t)) == Continue(Crawl(c, t));
    DrainStep(feed, capacity, Crawl([root], t), 5);
    DrainWrites(feed, capacity, c, t);
    WriteBackFour(feed, c, t);
  }

  lemma PairUuids(u1: string, u2: string)
    ensures Uuids(Pair(u1, u2)) == {u1, u2}
  {
    assert Pair(u1, u2)[0].uuid == u1;
    assert Pair(u1, u2)[1].uuid == u2;
  }

  /** The scenario feed meets the hypotheses of `SplitOnce` with capacity 5. */
  lemma QuadrantFeedAnswers()
    ensures PlainAnswer(QuadrantFeed, Root) && |BatchOf(QuadrantFeed, Root)| >= 5
    ensures BatchOf(QuadrantFeed, TopLeft) == Pair("tl1", "tl2")
    ensures BatchOf(QuadrantFeed, TopRight) == Pair("tr1", "tr2")
    ensures BatchOf(QuadrantFeed, BottomLeft) == Pair("bl1", "bl2")
    ensures BatchOf(QuadrantFeed, BottomRight) == Pair("br1", "br2")
    ensures forall i :: 0 <= i < 4 ==>
              PlainAnswer(QuadrantFeed, Split(Root)[i]) && |BatchOf(QuadrantFeed, Split(Root)[i])| < 5
  {
    RootQuadrants();
  }

  /** The scenario drain: one split of the root, then the quadrants written
      from bottom right to top left. */
  lemma ScenarioDrain()
    ensures Run(QuadrantFeed, 5, Root, map[], 5) ==
            Finished(Ingest(Ingest(Ingest(Ingest(map[], Pair("br1", "br2")), Pair("bl1", "bl2")),
                                   Pair("tr1", "tr2")), Pair("tl1", "tl2")))
  {
    QuadrantFeedAnswers();
    SplitOnce(QuadrantFeed, 5, Root, map[]);
    RootQuadrants();
  }

  /** The rows the scenario drain writes, one per distinct uuid. */
  lemma ScenarioKeys()
    ensures Ingest(Ingest(Ingest(Ingest(map[], Pair("br1", "br2")), Pair("bl1", "bl2")),
                          Pair("tr1", "tr2")), Pair("tl1", "tl2")).Keys
            == {"tl1", "tl2", "tr1", "tr2", "bl1", "bl2", "br1", "br2"}
  {
    PairUuids("br1", "br2");
    PairUuids("bl1", "bl2");
    PairUuids("tr1", "tr2");
    PairUuids("tl1", "tl2");
  }

  /** With capacity 5, the 10 by 10 root is split once into four 5 by 5
      quadrants, each quadrant is written, and the drain ends with eight rows. */
  lemma SplitOnceScenario()
    ensures var r := Run(QuadrantFeed, 5, Root, map[], 5);
            r.Finished? && r.table.Keys ==
              {"tl1", "tl2", "tr1", "tr2", "bl1", "bl2", "br1", "br2"}
  {
    ScenarioDrain();
    ScenarioKeys();
  }

  /** A feed that reports an error for every area. */
  function FailingFeed(): Area -> Fetched
  {
    a => Answered(Response(Some("rate limited"), None))
  }

  /** An error answer writes nothing and queues nothing: the drain ends after
      one step with the table it started from. */
  lemma ErrorScenario(root: Area, table: Table)
    ensures Run(FailingFeed(), 5, root, table, 1) == Finished(table)
  {
  }
}

=== FILE: store.dfy ===
/**
 The alert table: feed items, the rows they become, and the insert-or-ignore
 write keyed by `uuid`. The SQLite table is modelled as a map from `uuid` to
 row; the connection, pragmas and prepared statements are not modelled.
 */
module Store {

  /** A position as the feed reports it: `x` is the longitude, `y` the latitude. */
  datatype Location = Location(x: real, y: real)

  /** One item of the feed's `alerts` array, restricted to the fields the
      crawler reads. `kind` is the item's `type` field. */
  datatype FeedAlert = FeedAlert(uuid: string, kind: string, pubMillis: int, location: Location)

  /** One row of the `data` table. `kind` is the `type` column. */
  datatype Record = Record(uuid: string, kind: string, pubMillis: int, latitude: real, longitude: real)

  /** The `data` table, keyed by its primary key `uuid`. */
  type Table = map<string, Record>

  /** The row written for a feed item: latitude from `location.y`, longitude
      from `location.x`, the other fields copied. */
  function ToRecord(a: FeedAlert): (r: Record)
    ensures r.uuid == a.uuid && r.kind == a.kind && r.pubMillis == a.pubMillis
    ensures r.latitude == a.location.y && r.longitude == a.location.x
  {
    Record(a.uuid, a.kind, a.pubMillis, a.location.y, a.location.x)
  }

  /** Rebuilds the feed item a row was written from. */
  function FromRecord(r: Record): FeedAlert
  {
    FeedAlert(r.uuid, r.kind, r.pubMillis, Location(r.longitude, r.latitude))
  }

  /** The mapping from feed items to rows loses nothing the crawler reads. */
  lemma RecordRoundTrip(a: FeedAlert, r: Record)
    ensures FromRecord(ToRecord(a)) == a
    ensures ToRecord(FromRecord(r)) == r
  {
  }

  /** Every row is stored under its own `uuid`. */
  ghost predicate WellKeyed(t: Table)
  {
    forall k :: k in t ==> t[k].uuid == k
  }

  /** `t2` keeps every row of `t1` unchanged (and may hold more). */
  ghost predicate Extends(t1: Table, t2: Table)
  {
    forall k :: k in t1 ==> k in t2 && t2[k] == t1[k]
  }

  lemma ExtendsTransitive(t1: Table, t2: Table, t3: Table)
    requires Extends(t1, t2) && Extends(t2, t3)
    ensures Extends(t1, t3)
  {
  }

  /** `INSERT OR IGNORE`: a row whose key is already present is dropped. */
  function InsertOrIgnore(t: Table, r: Record): (t': Table)
    ensures t'.Keys == t.Keys + {r.uuid}
    ensures Extends(t, t')
    ensures r.uuid !in t ==> t'[r.uuid] == r
  {
    if r.uuid in t then t else t[r.uuid := r]
  }

  /** The uuids of a batch of feed items. */
  function Uuids(batch: seq<FeedAlert>): set<string>
  {
    set i | 0 <= i < |batch| :: batch[i].uuid
  }

  /** Item `i` is the first of the batch that carries its uuid. */
  ghost predicate FirstOccurrence(batch: seq<FeedAlert>, i: int)
    requires 0 <= i < |batch|
  {
    forall j :: 0 <= j < i ==> batch[j].uuid != batch[i].uuid
  }

  /** Writes a batch of feed items in order, one `INSERT OR IGNORE` each. The
      table gains exactly the batch's uuids and rows already present stay as
      they were (see `IngestFirstWins` for the rows of new keys). */
  function Ingest(t: Table, batch: seq<FeedAlert>): (t': Table)
    ensures t'.Keys == t.Keys + Uuids(batch)
    ensures Extends(t, t')
    decreases |batch|
  {
    if |batch| == 0 then t
    else
      var n := |batch| - 1;
      var prefix := batch[..n];
      assert forall i :: 0 <= i < n ==> prefix[i] == batch[i];
      assert Uuids(batch) == Uuids(prefix) + {batch[n].uuid};
      InsertOrIgnore(Ingest(t, prefix), ToRecord(batch[n]))
  }

  /** A key the table did not hold gets the row of the first item of the
      batch that carries it; later items with the same uuid are ignored. */
  lemma {:induction false} IngestFirstWins(t: Table, batch: seq<FeedAlert>, i: int)
    requires 0 <= i < |batch| && batch[i].uuid !in t && FirstOccurrence(batch, i)
    ensures Ingest(t, batch)[batch[i].uuid] == ToRecord(batch[i])
    decreases |batch|
  {
    var n := |batch| - 1;
    var prefix := batch[..n];
    if i < n {
      assert prefix[i] == batch[i];
      assert FirstOccurrence(prefix, i) by {
        forall j | 0 <= j < i ensures prefix[j].uuid != prefix[i].uuid {
          assert prefix[j] == batch[j];
        }
      }
      IngestFirstWins(t, prefix, i);
    } else {
      assert forall j :: 0 <= j < n ==> prefix[j].uuid != batch[i].uuid by {
        forall j | 0 <= j < n ensures prefix[j].uuid != batch[i].uuid {
          assert prefix[j] == batch[j];
        }
      }
      assert batch[i].uuid !in Uuids(prefix);
    }
  }

  /** Ingest keeps the table well keyed. */
  lemma {:induction false} IngestWellKeyed(t: Table, batch: seq<FeedAlert>)
    requires WellKeyed(t)
    ensures WellKeyed(Ingest(t, batch))
    decreases |batch|
  {
    if |batch| > 0 {
      IngestWellKeyed(t, batch[..|batch| - 1]);
    }
  }

  /** Items whose uuid is already stored change nothing. */
  lemma IngestPresent(t: Table, batch: seq<FeedAlert>)
    requires Uuids(batch) <= t.Keys
    ensures Ingest(t, batch) == t
  {
  }

  /** Ingesting the same batch a second time changes nothing. */
  lemma IngestIdempotent(t: Table, batch: seq<FeedAlert>)
    ensures Ingest(Ingest(t, batch), batch) == Ingest(t, batch)
  {
    IngestPresent(Ingest(t, batch), batch);
  }

  /** Ingesting two batches one after the other is ingesting their
      concatenation. */
  lemma {:induction false} IngestAppend(t: Table, b1: seq<FeedAlert>, b2: seq<FeedAlert>)
    ensures Ingest(t, b1 + b2) == Ingest(Ingest(t, b1), b2)
    decreases |b2|
  {
    if |b2| == 0 {
      assert b1 + b2 == b1;
    } else {
      var n := |b2| - 1;
      assert (b1 + b2)[..|b1 + b2| - 1] == b1 + b2[..n];
      assert (b1 + b2)[|b1 + b2| - 1] == b2[n];
      IngestAppend(t, b1, b2[..n]);
    }
  }

  /** A batch repeated within one response is stored once. */
  lemma IngestDoubledBatch(t: Table, batch: seq<FeedAlert>)
    ensures Ingest(t, batch + batch) == Ingest(t, batch)
  {
    IngestAppend(t, batch, batch);
    IngestIdempotent(t, batch);
  }

  /** Starting from an empty table, the number of rows is the number of
      distinct uuids in the batch. */
  lemma IngestCount(batch: seq<FeedAlert>)
    ensures |Ingest(map[], batch)| == |Uuids(batch)|
  {
    assert Ingest(map[], batch).Keys == Uuids(batch);
  }
}
